=== FILE: README.md ===
# Fitness tracker request contract, modelled in Dafny

The service keeps workouts and the exercises done in them. Each entity has five
routes: list, get by id, create, full replace and delete. Each route validates
the request, issues one SQL statement and maps the outcome to an HTTP status.
This project models that contract as pure functions over an abstract database
and proves the properties the routes promise.

- `wrappers.dfy`, module `Wrappers`: `Option` and `Result`.
- `js.dfy`, module `Js`: the JavaScript values a handler sees
  (`Undef | Null | Str | Num | Bool`). It also gives the three operations the
  handlers apply to them:
  - `!x` as `IsFalsy`;
  - `x == null` as `IsNullish`;
  - `Number(x)` followed by `isNaN` as `ToNumber`, which returns `None` for NaN.

  Template interpolation of an id into a message is `NumberToString`.
- `store.dfy`, module `Store`: a table is a `map<int, F>` of rows by id plus the
  next value of its id sequence. It has one total function per SQL statement:
  `All` (SELECT ... ORDER BY id), `Get`, `Insert` (INSERT ... RETURNING),
  `Replace` (UPDATE every column ... RETURNING) and `Delete` (DELETE ...
  RETURNING). `Call` names the statement a handler issued.
- `schema.dfy`, module `Schema`: workout and exercise columns, and `Db`, which
  holds the two tables.
- `workout_queries.dfy` and `exercise_queries.dfy`: the ten query functions of
  `db/queries/*.js` as operations on `Db`. Each one touches only its own table.
- `http.dfy`, module `Http`: responses and `Handled`. `Handled` records what a
  handler did: the database it left behind, the statement it issued (`None`
  when it answered before reaching the store), and its response.
- `workouts_api.dfy` and `exercises_api.dfy`: the route handlers of
  `api/*.js`. They keep the source's order of checks: path id, then field
  presence, then (exercises only) numeric type, then the store call, then
  404 / 200 / 201.

Table invariant `Store.Valid`: every id in use lies in `[1, nextId)`. This holds
because every id comes from the table's serial sequence. List and insert
require it, and every operation preserves it. No operation lowers `nextId`,
so an id is never handed out twice. `Schema.Consistent` adds that no stored
row holds a falsy name or workout date, and every route keeps it.

The route doc comments describe the bodies as typed
(`{ workout_id: number, name: string, sets: number, reps: number }` at
api/exercises.js:51, `{ date: "YYYY-MM-DD", name: "Some Name" }` at
api/workouts.js:46). The checks the code actually runs are looser, and the
model follows the code:
- A workout's `date` and `name` only need to be truthy. The number `5` passes,
  for example.
- An exercise's `workout_id`, `sets` and `reps` accept any value other than
  `null` and `undefined` that `Number` turns into a number. `null` is turned
  away by the presence check, even though `Number(null)` is 0. `""` becomes 0,
  `true` becomes 1, and negative numbers pass.
  `ExercisesApi.NumericStringsCoerced` records the `""` and `true` cases.
- Nothing checks that an exercise's `workout_id` names an existing workout.

## Model

| member | source | states |
|---|---|---|
| Js.IsNullish | api/exercises.js:58-61 | `x == null` holds only for values that are also falsy (null and undefined) |
| Js.IsFalsy | api/workouts.js:52 | `!x` holds exactly for undefined, null, `""`, 0 and false |
| Js.ToNumber | api/exercises.js:69-71 | `Number(x)` then `isNaN`: strings follow `ParseNumeric`; of the other values only undefined is NaN; null and false are 0, true is 1, a number is itself |
| Http.PathId | api/exercises.js:32-33 | `Number(req.params.id)` then `isNaN`: a number exactly for `""`, a digit run, or a sign followed by a digit run |
| Js.PresentButFalsy | api/exercises.js:57-61 | `x == null` and `!x` disagree exactly on `0`, `""` and `false`; every nullish value is falsy |
| Js.ParseDigits | api/exercises.js:32-33 | a string parses as a decimal natural exactly when it is a non-empty run of digits |
| Js.ParseNumeric | api/exercises.js:32-33 | `Number` on a string yields a number exactly for `""`, a digit run, or a sign followed by a digit run; the sign decides the sign of the result |
| Js.Digits | api/exercises.js:41 | the interpolated numeral is a non-empty digit run with no leading zero |
| Js.NumberToString | api/exercises.js:41 | an interpolated number starts with `-` exactly when it is negative |
| Js.ParseDigitsOfDigits | api/exercises.js:32-41 | parsing the numeral of a natural gives back that natural |
| Js.NumberToStringRoundTrip | api/exercises.js:32-41 | coercing an interpolated id back with `Number` gives the same id |
| Store.RowsFrom | db/queries/exercises.js:8-14 | the scan from a given id is strictly ascending by id, contains only stored rows, and contains every stored row in range |
| Store.RowsFromCount | db/queries/exercises.js:8-14 | the scan holds exactly as many rows as the table has ids in range |
| Store.All | db/queries/exercises.js:7-16 | SELECT ORDER BY id returns every row exactly once, ascending by id, and nothing else |
| Store.Get | db/queries/exercises.js:23-33 | SELECT WHERE id finds a row exactly when the id is stored, and returns that row |
| Store.Insert | db/queries/exercises.js:40-50 | INSERT adds exactly one row under an id never used before and returns it; the invariant is kept |
| Store.Replace | db/queries/exercises.js:59-73 | UPDATE WHERE id overwrites every column of a present row and returns it; an absent id changes nothing and returns none; other rows and the sequence are untouched |
| Store.Delete | db/queries/exercises.js:80-90 | DELETE WHERE id removes the row and returns it as it was; an absent id changes nothing; other rows are untouched |
| Store.DeletedIdNotReused | db/queries/exercises.js:40-49 | after a delete, the next insert never gets the deleted id back |
| ExerciseQueries.GetAllExercises | db/queries/exercises.js:3-16 | every exercise row, sorted strictly ascending by id, as many as the table holds |
| ExerciseQueries.GetExerciseById | db/queries/exercises.js:18-33 | the exercise with that id, or none exactly when the id is absent |
| ExerciseQueries.CreateExercise | db/queries/exercises.js:35-50 | exactly one new row whose columns equal the input, under an id drawn from the sequence and absent from the table; existing rows and the workouts table unchanged |
| ExerciseQueries.UpdateExercise | db/queries/exercises.js:52-73 | all four columns of the matching row replaced, its id kept, the new row returned; none and no change for an absent id; other rows and workouts untouched |
| ExerciseQueries.DeleteExercise | db/queries/exercises.js:75-90 | the matching row removed and returned as it was; none for an absent id; other rows and workouts untouched |
| ExerciseQueries.UpdateExerciseIdempotent | db/queries/exercises.js:59-73 | the same update applied twice gives the same table and row as applying it once |
| ExerciseQueries.DeleteExerciseTwice | db/queries/exercises.js:80-90 | a second delete of the same id returns none and changes nothing |
| WorkoutQueries.GetAllWorkouts | db/queries/workouts.js:3-12 | every workout row, sorted ascending by id, as many as the table holds |
| WorkoutQueries.GetWorkoutById | db/queries/workouts.js:14-29 | the workout with that id, or none exactly when the id is absent |
| WorkoutQueries.CreateWorkout | db/queries/workouts.js:31-46 | one new row with the given date and name under an id drawn from the sequence and absent from the table; exercises untouched |
| WorkoutQueries.UpdateWorkout | db/queries/workouts.js:48-67 | date and name of the matching row overwritten, id kept; none and no change for an absent id; other rows untouched |
| WorkoutQueries.DeleteWorkout | db/queries/workouts.js:69-84 | only the matching workout removed and returned as it was, or none; the exercises table is not touched |
| WorkoutQueries.UpdateWorkoutIdempotent | db/queries/workouts.js:48-67 | the same update applied twice equals applying it once |
| WorkoutQueries.DeleteWorkoutTwice | db/queries/workouts.js:69-84 | a second delete of the same id returns none |
| ExercisesApi.CheckBody | api/exercises.js:57-83 | any null/undefined numeric field or falsy name gives the "all required" error; otherwise any non-numeric field gives "must be numbers"; otherwise the coerced numbers and the unmodified name |
| ExercisesApi.HandleList | api/exercises.js:17-24 | 200 with all exercise rows ascending by id; nothing changes |
| ExercisesApi.HandleGet | api/exercises.js:30-47 | non-numeric id: 400 "Invalid exercise ID" with no store call; absent id: 404 naming the id; present id: 200 with the row; the store never changes |
| ExercisesApi.HandlePost | api/exercises.js:53-88 | a 400 happens exactly when no statement is issued; a valid body inserts the coerced fields and answers 201 with the new row; workouts untouched |
| ExercisesApi.HandlePut | api/exercises.js:94-138 | the id check comes first, then presence, then type, each a 400 with no store call; then 404 with nothing changed, or 200 with the replaced row and other rows untouched |
| ExercisesApi.HandleDelete | api/exercises.js:143-160 | bad id: 400, no call; absent id: 404, nothing changes; present id: 200 with the deleted row, other rows untouched |
| ExercisesApi.ZeroAcceptedEmptyNameRejected | api/exercises.js:57-67 | numeric 0 passes the presence check for workout_id, sets and reps; an empty name fails it whatever the other fields hold |
| ExercisesApi.BadIdIgnoresBody | api/exercises.js:96-112 | with a bad path id every body gives the same "Invalid exercise ID" 400 |
| ExercisesApi.PutIdempotent | api/exercises.js:123-134 | replaying a PUT gives the same table and the same response |
| ExercisesApi.DeleteTwiceNotFound | api/exercises.js:150-156 | a second DELETE of the same id is a 404 that changes nothing |
| ExercisesApi.PostThenGet | api/exercises.js:78-84 | the id a POST returns, written into a GET path, fetches the same row |
| ExercisesApi.NumericStringsCoerced | api/exercises.js:68-83 | numeric strings are stored as numbers; a word is rejected; `""` and `true` are stored as 0 and 1 |
| ExercisesApi.SquatsScenario | api/exercises.js:78-84 | a complete Squats body answers 201 with those fields under a fresh id |
| ExercisesApi.MissingCountsScenario | api/exercises.js:57-67 | a body without sets and reps answers 400 and stores nothing |
| ExercisesApi.RoutesKeepDbConsistent | api/exercises.js:57-67 | starting from a consistent database, all five exercise routes leave it consistent: ids below the sequence value, and no stored exercise with a falsy name |
| ExercisesApi.DeletedIdNotReissued | api/exercises.js:78-156 | POST, then DELETE of the returned id, which answers 200 with the created row, then POST again: the second row gets neither the deleted id nor any id the table held before |
| WorkoutsApi.CheckBody | api/workouts.js:52-56 | the body passes exactly when date and name are both truthy, and is then passed on unchanged |
| WorkoutsApi.HandleList | api/workouts.js:12-19 | 200 with all workout rows ascending by id; nothing changes |
| WorkoutsApi.HandleGet | api/workouts.js:25-42 | non-numeric id: 400 "Invalid workout ID" with no store call; absent id: 404 naming the id; present id: 200 with the row |
| WorkoutsApi.HandlePost | api/workouts.js:49-63 | falsy date or name: 400 with no call; otherwise `{date, name}` inserted unchanged and 201 with the new row |
| WorkoutsApi.HandlePut | api/workouts.js:72-96 | the id check comes before the body check; 404 changes nothing; 200 returns the row with both fields replaced; other rows untouched |
| WorkoutsApi.HandleDelete | api/workouts.js:102-119 | bad id: 400, no call; absent id: 404, nothing changes; present id: 200 with the deleted row; exercises untouched |
| WorkoutsApi.PutIdempotent | api/workouts.js:86-92 | replaying a PUT gives the same table and the same response |
| WorkoutsApi.DeleteTwiceNotFound | api/workouts.js:109-115 | a second DELETE of the same id is a 404 that changes nothing |
| WorkoutsApi.PostThenGet | api/workouts.js:58-59 | the id a POST returns, written into a GET path, fetches the same row |
| WorkoutsApi.RoutesKeepDbConsistent | api/workouts.js:52-56 | starting from a consistent database, all five workout routes leave it consistent: ids below the sequence value, and no stored workout with a falsy date or name |
| WorkoutsApi.DeletedIdNotReissued | api/workouts.js:58-115 | POST, then DELETE of the returned id, which answers 200 with the created row, then POST again: the second row gets neither the deleted id nor any id the table held before |
| WorkoutsApi.LegDayScenario | api/workouts.js:49-63 | the Leg Day body answers 201 with its date and name under a fresh id |
| WorkoutsApi.NonNumericIdScenario | api/workouts.js:27-30 | `GET /workouts/abc` answers 400 "Invalid workout ID" with no store call |
| WorkoutsApi.MissingIdScenario | api/workouts.js:32-38 | `GET /workouts/9999` on a table without it answers 404 "Workout with ID 9999 not found" |

## Left out

- app.js: the Express wiring, the JSON body parser, the welcome route and the catch-all 404 and 500 responders are framework plumbing. A failing statement goes to `next(err)`, which answers 500. The model's store functions are total, so that path does not appear.
- db/client.js and db/seed.js are connection setup and fixture loading, so they are not part of this model.
- Async execution, the shared connection and concurrent requests are not modelled. Each handler is one atomic step.
- Js.ParseNumeric: covers integers only. JavaScript's `Number` also trims whitespace and accepts fractions, trailing-dot numerals (`"5."` is 5), exponents, hex, binary and octal literals (`"0b11"` is 3, `"0o7"` is 7) and `Infinity`. The model treats all of those strings as NaN. As a path id such a string gives 400 here. As `workout_id`, `sets` or `reps` it gives the "must be numbers" 400 here, where the source would store the number.
- Js.ToNumber: JSON numbers are integers here. Fractional numbers, objects and arrays in a body are not modelled.
- The database's column types are not modelled. They include 32-bit integer ranges, the conversion of a `date` column, and a statement failing on a value the column rejects. Rows hold the values the handler passed.
- The foreign key on `workout_id` and any cascade on delete are not modelled. The store accepts any `workout_id`, as the application layer does.
- A request without a parsed body object is not modelled. In the source, destructuring it throws, which gives a 500. The model always has a body record, whose missing fields are `Undef`.

=== FILE: exercise_queries.dfy ===
/** The exercise query functions: each issues one statement against the
    exercises table and leaves the workouts table alone. */
module ExerciseQueries {
  import opened Wrappers
  import opened Store
  import opened Schema

  /** Every exercise row, sorted strictly ascending by id. */
  function GetAllExercises(db: Db): (rows: seq<ExerciseRow>)
    requires Valid(db.exercises)
    ensures Ascending(rows)
    ensures forall r :: r in rows ==> Holds(db.exercises, r)
    ensures forall id :: id in db.exercises.rows ==> Row(id, db.exercises.rows[id]) in rows
    ensures |rows| == |db.exercises.rows|
  {
    All(db.exercises)
  }

  /** The exercise whose id equals the argument, or nothing. */
  function GetExerciseById(db: Db, id: int): (r: Option<ExerciseRow>)
    ensures r.Some? <==> id in db.exercises.rows
    ensures r.Some? ==> r.value.id == id && r.value.fields == db.exercises.rows[id]
  {
    Get(db.exercises, id)
  }

  /** Adds exactly one exercise carrying the given columns under a new id and returns it. */
  function CreateExercise(db: Db, data: ExerciseData): (res: (Db, ExerciseRow))
    requires Valid(db.exercises)
    ensures var (db', row) := res;
      && row.fields == data
      && row.id !in db.exercises.rows
      && db'.exercises.rows == db.exercises.rows[row.id := data]
      && db'.workouts == db.workouts
      && db.exercises.nextId <= row.id < db'.exercises.nextId
      && Valid(db'.exercises)
  {
    var (t, row) := Insert(db.exercises, data);
    (db.(exercises := t), row)
  }

  /** Overwrites all four columns of the matching exercise and returns the new row. */
  function UpdateExercise(db: Db, id: int, data: ExerciseData): (res: (Db, Option<ExerciseRow>))
    ensures var (db', r) := res;
      && (id in db.exercises.rows ==> r == Some(Row(id, data)) && Holds(db'.exercises, Row(id, data)))
      && (id !in db.exercises.rows ==> r == None && db' == db)
      && SameExcept(db.exercises.rows, db'.exercises.rows, id)
      && db'.workouts == db.workouts
      && db'.exercises.nextId == db.exercises.nextId
      && (Valid(db.exercises) ==> Valid(db'.exercises))
  {
    var (t, r) := Replace(db.exercises, id, data);
    (db.(exercises := t), r)
  }

  /** Removes the matching exercise and returns it as it was. */
  function DeleteExercise(db: Db, id: int): (res: (Db, Option<ExerciseRow>))
    ensures var (db', r) := res;
      && (id in db.exercises.rows ==> r == Some(Row(id, db.exercises.rows[id])))
      && (id !in db.exercises.rows ==> r == None && db' == db)
      && id !in db'.exercises.rows
      && SameExcept(db.exercises.rows, db'.exercises.rows, id)
      && db'.workouts == db.workouts
      && db'.exercises.nextId == db.exercises.nextId
      && (Valid(db.exercises) ==> Valid(db'.exercises))
  {
    var (t, r) := Delete(db.exercises, id);
    (db.(exercises := t), r)
  }

  /** Applying the same update twice leaves the same table and returns the
      same row as applying it once. */
  lemma UpdateExerciseIdempotent(db: Db, id: int, data: ExerciseData)
    ensures var (db1, r1) := UpdateExercise(db, id, data);
            UpdateExercise(db1, id, data) == (db1, r1)
  {
    var (db1, r1) := UpdateExercise(db, id, data);
    if id in db.exercises.rows {
      assert db1.exercises.rows[id := data] == db1.exercises.rows;
    }
  }

  /** A second delete of the same id finds nothing. */
  lemma DeleteExerciseTwice(db: Db, id: int)
    ensures var (db1, _) := DeleteExercise(db, id);
            DeleteExercise(db1, id) == (db1, None)
  {
  }
}

=== FILE: exercises_api.dfy ===
/** The `/exercises` routes. Each handler is a pure function from the
    database and the request to what it did: it coerces the path id, then
    checks that the body's fields are present, then that the numeric ones are
    numbers, and only then issues one statement against the store, mapping
    an absent row to 404. */
module ExercisesApi {
  import opened Wrappers
  import opened Js
  import opened Store
  import opened Schema
  import opened Http
  import opened ExerciseQueries

  /** The destructured `{ workout_id, name, sets, reps }` of the JSON body. */
  datatype ExerciseBody = ExerciseBody(workoutId: Value, name: Value, sets: Value, reps: Value)

  type Outcome = Handled<Db, Call<ExerciseData>, ExerciseRow>

  const InvalidIdMessage: string := "Invalid exercise ID"
  const MissingFieldsMessage: string := "Fields 'workout_id', 'name', 'sets', and 'reps' are all required"
  const NotNumbersMessage: string := "'workout_id', 'sets', and 'reps' must be numbers"

  function NotFoundMessage(id: int): string {
    "Exercise with ID " + NumberToString(id) + " not found"
  }

  function CannotUpdateMessage(id: int): string {
    "Cannot update: exercise with ID " + NumberToString(id) + " not found"
  }

  function CannotDeleteMessage(id: int): string {
    "Cannot delete: exercise with ID " + NumberToString(id) + " not found"
  }

  /** The presence check: the numeric fields must not be null or undefined
      (so 0 is present), and the name must be truthy. */
  predicate FieldsPresent(b: ExerciseBody) {
    && !IsNullish(b.workoutId)
    && !IsFalsy(b.name)
    && !IsNullish(b.sets)
    && !IsNullish(b.reps)
  }

  /** The type check: each numeric field coerces to a number. */
  predicate FieldsNumeric(b: ExerciseBody) {
    ToNumber(b.workoutId).Some? && ToNumber(b.sets).Some? && ToNumber(b.reps).Some?
  }

  /** Body validation shared by POST and PUT: presence first, then type;
      on success the coerced numbers and the unmodified name. */
  function CheckBody(b: ExerciseBody): (r: Result<ExerciseData, string>)
    ensures r.Success? <==> FieldsPresent(b) && FieldsNumeric(b)
    ensures !FieldsPresent(b) ==> r == Failure(MissingFieldsMessage)
    ensures FieldsPresent(b) && !FieldsNumeric(b) ==> r == Failure(NotNumbersMessage)
    ensures r.Success? ==>
              && ToNumber(b.workoutId) == Some(r.value.workoutId)
              && r.value.name == b.name
              && ToNumber(b.sets) == Some(r.value.sets)
              && ToNumber(b.reps) == Some(r.value.reps)
  {
    if IsNullish(b.workoutId) || IsFalsy(b.name) || IsNullish(b.sets) || IsNullish(b.reps) then
      Failure(MissingFieldsMessage)
    else if ToNumber(b.workoutId).None? || ToNumber(b.sets).None? || ToNumber(b.reps).None? then
      Failure(NotNumbersMessage)
    else
      Success(ExerciseData(ToNumber(b.workoutId).value, b.name, ToNumber(b.sets).value, ToNumber(b.reps).value))
  }

  /** GET /exercises */
  function HandleList(db: Db): (h: Outcome)
    requires Valid(db.exercises)
    ensures h.store == db && h.call == Some(SelectAll)
    ensures h.response.status == Ok && h.response.body.Many?
    ensures Ascending(h.response.body.rows)
    ensures forall r :: r in h.response.body.rows ==> Holds(db.exercises, r)
    ensures forall id :: id in db.exercises.rows ==> Row(id, db.exercises.rows[id]) in h.response.body.rows
  {
    Handled(db, Some(SelectAll), Response(Ok, Many(GetAllExercises(db))))
  }

  /** GET /exercises/:id */
  function HandleGet(db: Db, rawId: string): (h: Outcome)
    ensures h.store == db
    ensures h.call.None? <==> h.response.status == BadRequest
    ensures PathId(rawId).None? ==> h.response == Fail(BadRequest, InvalidIdMessage)
    ensures PathId(rawId).Some? ==>
              var id := PathId(rawId).value;
              && h.call == Some(SelectById(id))
              && (id in db.exercises.rows ==> h.response == Response(Ok, One(Row(id, db.exercises.rows[id]))))
              && (id !in db.exercises.rows ==> h.response == Fail(NotFound, NotFoundMessage(id)))
  {
    match PathId(rawId)
    case None => Handled(db, None, Fail(BadRequest, InvalidIdMessage))
    case Some(id) =>
      var found := GetExerciseById(db, id);
      Handled(db, Some(SelectById(id)),
              if found.None? then Fail(NotFound, NotFoundMessage(id)) else Response(Ok, One(found.value)))
  }

  /** POST /exercises */
  function HandlePost(db: Db, body: ExerciseBody): (h: Outcome)
    requires Valid(db.exercises)
    ensures h.call.None? <==> h.response.status == BadRequest
    ensures h.call.None? ==> h.store == db
    ensures CheckBody(body).Failure? ==> h.response == Fail(BadRequest, CheckBody(body).error)
    ensures CheckBody(body).Success? ==>
              var data := CheckBody(body).value;
              && h.call == Some(InsertRow(data))
              && h.response.status == Created
              && h.response.body.One?
              && h.response.body.row.fields == data
              && h.response.body.row.id !in db.exercises.rows
              && db.exercises.nextId <= h.response.body.row.id < h.store.exercises.nextId
              && h.store.exercises.rows == db.exercises.rows[h.response.body.row.id := data]
    ensures h.store.workouts == db.workouts
    ensures h.store.exercises.nextId >= db.exercises.nextId
    ensures Valid(h.store.exercises)
  {
    match CheckBody(body)
    case Failure(message) => Handled(db, None, Fail(BadRequest, message))
    case Success(data) =>
      var (db', row) := CreateExercise(db, data);
      Handled(db', Some(InsertRow(data)), Response(Created, One(row)))
  }

  /** PUT /exercises/:id: the id is checked before the body. */
  function HandlePut(db: Db, rawId: string, body: ExerciseBody): (h: Outcome)
    ensures h.call.None? <==> h.response.status == BadRequest
    ensures h.call.None? ==> h.store == db
    ensures h.response.status == NotFound ==> h.store == db
    ensures PathId(rawId).None? ==> h.response == Fail(BadRequest, InvalidIdMessage)
    ensures PathId(rawId).Some? && CheckBody(body).Failure? ==>
              h.response == Fail(BadRequest, CheckBody(body).error)
    ensures PathId(rawId).Some? && CheckBody(body).Success? ==>
              var id := PathId(rawId).value;
              var data := CheckBody(body).value;
              && h.call == Some(UpdateRow(id, data))
              && SameExcept(db.exercises.rows, h.store.exercises.rows, id)
              && (id in db.exercises.rows ==>
                    h.response == Response(Ok, One(Row(id, data))) && Holds(h.store.exercises, Row(id, data)))
              && (id !in db.exercises.rows ==> h.response == Fail(NotFound, CannotUpdateMessage(id)))
    ensures h.store.workouts == db.workouts
    ensures h.store.exercises.nextId == db.exercises.nextId
    ensures Valid(db.exercises) ==> Valid(h.store.exercises)
  {
    match PathId(rawId)
    case None => Handled(db, None, Fail(BadRequest, InvalidIdMessage))
    case Some(id) =>
      match CheckBody(body)
      case Failure(message) => Handled(db, None, Fail(BadRequest, message))
      case Success(data) =>
        var (db', updated) := UpdateExercise(db, id, data);
        Handled(db', Some(UpdateRow(id, data)),
                if updated.None? then Fail(NotFound, CannotUpdateMessage(id)) else Response(Ok, One(updated.value)))
  }

  /** DELETE /exercises/:id */
  function HandleDelete(db: Db, rawId: string): (h: Outcome)
    ensures h.call.None? <==> h.response.status == BadRequest
    ensures h.call.None? ==> h.store == db
    ensures h.response.status == NotFound ==> h.store == db
    ensures PathId(rawId).None? ==> h.response == Fail(BadRequest, InvalidIdMessage)
    ensures PathId(rawId).Some? ==>
              var id := PathId(rawId).value;
              && h.call == Some(DeleteRow(id))
              && id !in h.store.exercises.rows
              && SameExcept(db.exercises.rows, h.store.exercises.rows, id)
              && (id in db.exercises.rows ==> h.response == Response(Ok, One(Row(id, db.exercises.rows[id]))))
              && (id !in db.exercises.rows ==> h.response == Fail(NotFound, CannotDeleteMessage(id)))
    ensures h.store.workouts == db.workouts
    ensures h.store.exercises.nextId == db.exercises.nextId
    ensures Valid(db.exercises) ==> Valid(h.store.exercises)
  {
    match PathId(rawId)
    case None => Handled(db, None, Fail(BadRequest, InvalidIdMessage))
    case Some(id) =>
      var (db', deleted) := DeleteExercise(db, id);
      Handled(db', Some(DeleteRow(id)),
              if deleted.None? then Fail(NotFound, CannotDeleteMessage(id)) else Response(Ok, One(deleted.value)))
  }

  /** 0 passes the null test that guards the numeric fields, while an empty
      name fails the truthiness test that guards the name, whatever the other
      fields hold. */
  lemma ZeroAcceptedEmptyNameRejected(name: Value, workoutId: Value, sets: Value, reps: Value)
    ensures !IsFalsy(name) ==> CheckBody(ExerciseBody(Num(0), name, Num(0), Num(0))) == Success(ExerciseData(0, name, 0, 0))
    ensures CheckBody(ExerciseBody(workoutId, Str(""), sets, reps)) == Failure(MissingFieldsMessage)
  {
  }

  /** With a bad path id the body is never looked at. */
  lemma BadIdIgnoresBody(db: Db, rawId: string, b1: ExerciseBody, b2: ExerciseBody)
    requires PathId(rawId).None?
    ensures HandlePut(db, rawId, b1) == HandlePut(db, rawId, b2) == Handled(db, None, Fail(BadRequest, InvalidIdMessage))
  {
  }

  /** Replaying the same PUT leaves the same table and gives the same response. */
  lemma PutIdempotent(db: Db, rawId: string, body: ExerciseBody)
    ensures var h1 := HandlePut(db, rawId, body);
            var h2 := HandlePut(h1.store, rawId, body);
            h2.store == h1.store && h2.response == h1.response
  {
  }

  /** A second DELETE of the same id is a 404 that changes nothing. */
  lemma DeleteTwiceNotFound(db: Db, rawId: string)
    requires PathId(rawId).Some?
    ensures var h1 := HandleDelete(db, rawId);
            var h2 := HandleDelete(h1.store, rawId);
            h2.response == Fail(NotFound, CannotDeleteMessage(PathId(rawId).value)) && h2.store == h1.store
  {
  }

  /** The id in a 201 response, written into a GET path, fetches the created row. */
  lemma PostThenGet(db: Db, body: ExerciseBody)
    requires Valid(db.exercises)
    requires CheckBody(body).Success?
    ensures var h := HandlePost(db, body);
            HandleGet(h.store, NumberToString(h.response.body.row.id)).response == Response(Ok, h.response.body)
  {
    var h := HandlePost(db, body);
    NumberToStringRoundTrip(h.response.body.row.id);
  }

  /** Numeric strings are coerced before they reach the store; a word is not
      a number; but an empty string passes both checks and is stored as 0,
      and `true` as 1, because `Number` maps them to those numbers. */
  lemma NumericStringsCoerced(name: Value)
    requires !IsFalsy(name)
    ensures CheckBody(ExerciseBody(Str("1"), name, Str("3"), Str("12"))) == Success(ExerciseData(1, name, 3, 12))
    ensures CheckBody(ExerciseBody(Num(1), name, Str("three"), Num(12))) == Failure(NotNumbersMessage)
    ensures CheckBody(ExerciseBody(Num(1), name, Str(""), Bool(true))) == Success(ExerciseData(1, name, 0, 1))
  {
  }

  /** `POST /exercises {"workout_id":1,"name":"Squats","sets":3,"reps":12}`
      answers 201 with a new row carrying those fields. */
  lemma SquatsScenario(db: Db)
    requires Valid(db.exercises)
    ensures var h := HandlePost(db, ExerciseBody(Num(1), Str("Squats"), Num(3), Num(12)));
            && h.response.status == Created
            && h.response.body.One?
            && h.response.body.row.fields == ExerciseData(1, Str("Squats"), 3, 12)
            && h.response.body.row.id !in db.exercises.rows
  {
  }

  /** `POST /exercises {"workout_id":1,"name":"Squats"}` lacks sets and reps:
      400 and nothing stored. */
  lemma MissingCountsScenario(db: Db)
    requires Valid(db.exercises)
    ensures HandlePost(db, ExerciseBody(Num(1), Str("Squats"), Undef, Undef))
            == Handled(db, None, Fail(BadRequest, MissingFieldsMessage))
  {
  }

  /** Every route keeps the database consistent: ids stay below the sequence
      value and no stored row holds a falsy name or date. */
  lemma RoutesKeepDbConsistent(db: Db, rawId: string, body: ExerciseBody)
    requires Consistent(db)
    ensures Consistent(HandleList(db).store)
    ensures Consistent(HandleGet(db, rawId).store)
    ensures Consistent(HandlePost(db, body).store)
    ensures Consistent(HandlePut(db, rawId, body).store)
    ensures Consistent(HandleDelete(db, rawId).store)
  {
  }

  /** POST, DELETE of the id it returned (which finds and returns the created
      row), then POST again: the second row never gets the deleted id back,
      nor any id the table held before. */
  lemma DeletedIdNotReissued(db: Db, first: ExerciseBody, second: ExerciseBody)
    requires Valid(db.exercises)
    requires CheckBody(first).Success? && CheckBody(second).Success?
    ensures var h1 := HandlePost(db, first);
            var h2 := HandleDelete(h1.store, NumberToString(h1.response.body.row.id));
            var h3 := HandlePost(h2.store, second);
            && h2.response == Response(Ok, h1.response.body)
            && h3.response.body.row.id != h1.response.body.row.id
            && h3.response.body.row.id !in db.exercises.rows
  {
    var h1 := HandlePost(db, first);
    NumberToStringRoundTrip(h1.response.body.row.id);
  }
}

=== FILE: http.dfy ===
/** Responses as the handlers produce them, and the record of what a handler did. */
module Http {
  import opened Wrappers
  import opened Js

  /** `res.json(...)` payloads: an error object `{ error }`, one row, or an array of rows. */
  datatype Body<R> = Error(message: string) | One(row: R) | Many(rows: seq<R>)

  datatype Response<R> = Response(status: int, body: Body<R>)

  const Ok: int := 200
  const Created: int := 201
  const BadRequest: int := 400
  const NotFound: int := 404

  /** `res.status(status).json({ error: message })` */
  function Fail<R>(status: int, message: string): Response<R> {
    Response(status, Error(message))
  }

  /** `Number(req.params.id)` followed by `isNaN`: the id a path segment
      denotes, or None when the segment is not a number. */
  function PathId(raw: string): (r: Option<int>)
    ensures r == ParseNumeric(raw)
    ensures r.Some? <==> raw == "" || ParseDigits(raw).Some? || (|raw| >= 2 && (raw[0] == '-' || raw[0] == '+') && ParseDigits(raw[1..]).Some?)
  {
    ToNumber(Str(raw))
  }

  /** What a handler did: the store it left behind, the statement it issued
      (None when it answered before reaching the store), and its response. */
  datatype Handled<S, C, R> = Handled(store: S, call: Option<C>, response: Response<R>)
}

=== FILE: js.dfy ===
/** The JavaScript values a request handler sees and the three JavaScript
    operations the handlers apply to them: the falsiness test `!x`, the loose
    null test `x == null`, and numeric coercion `Number(x)` followed by
    `isNaN`. Numbers are integers here; see README for what that leaves out. */
module Js {
  import opened Wrappers

  /** A path parameter (always a string) or a field of the parsed JSON body
      (a field the body lacks reads as `Undef`). */
  datatype Value = Undef | Null | Str(s: string) | Num(n: int) | Bool(b: bool)

  /** `x == null`: loose equality with null holds for null and undefined only. */
  function IsNullish(v: Value): (r: bool)
    ensures r ==> IsFalsy(v)
  {
    v.Undef? || v.Null?
  }

  /** `!x`: the falsy values are undefined, null, "", 0 and false. */
  function IsFalsy(v: Value): (r: bool)
    ensures r <==> v in {Undef, Null, Str(""), Num(0), Bool(false)}
  {
    match v
    case Undef => true
    case Null => true
    case Str(s) => s == ""
    case Num(n) => n == 0
    case Bool(b) => !b
  }

  /** The two absence tests differ exactly on the present falsy values. */
  lemma PresentButFalsy(v: Value)
    ensures IsFalsy(v) && !IsNullish(v) <==> v == Num(0) || v == Str("") || v == Bool(false)
    ensures IsNullish(v) ==> IsFalsy(v)
  {
  }

  predicate IsDigit(c: char) {
    '0' <= c <= '9'
  }

  ghost predicate AllDigits(s: string) {
    forall i :: 0 <= i < |s| ==> IsDigit(s[i])
  }

  function DigitValue(c: char): (d: nat)
    requires IsDigit(c)
    ensures d < 10
  {
    c as int - '0' as int
  }

  function DigitChar(d: nat): (c: char)
    requires d < 10
    ensures IsDigit(c) && DigitValue(c) == d
  {
    ('0' as int + d) as char
  }

  /** The decimal numeral of `n`, most significant digit first. */
  function Digits(n: nat): (s: string)
    ensures |s| >= 1 && AllDigits(s)
    ensures s[0] == '0' ==> n == 0
    decreases n
  {
    if n < 10 then [DigitChar(n)] else Digits(n / 10) + [DigitChar(n % 10)]
  }

  /** The value of a non-empty string of decimal digits; None for anything else. */
  function ParseDigits(s: string): (r: Option<nat>)
    ensures r.Some? <==> |s| >= 1 && AllDigits(s)
    decreases |s|
  {
    if |s| == 0 || !IsDigit(s[|s| - 1]) then None
    else if |s| == 1 then Some(DigitValue(s[0]))
    else
      match ParseDigits(s[..|s| - 1])
      case None => None
      case Some(p) => Some(10 * p + DigitValue(s[|s| - 1]))
  }

  /** `Number(s)` on a string, restricted to integers: the empty string is 0,
      an optional sign followed by decimal digits is that integer, and every
      other string is NaN (None). */
  function ParseNumeric(s: string): (r: Option<int>)
    ensures r.Some? <==>
              || s == ""
              || (|s| >= 1 && AllDigits(s))
              || (|s| >= 2 && (s[0] == '-' || s[0] == '+') && AllDigits(s[1..]))
    ensures r.Some? && |s| >= 1 && s[0] == '-' ==> r.value <= 0
    ensures r.Some? && |s| >= 1 && s[0] != '-' ==> r.value >= 0
  {
    if s == "" then Some(0)
    else if s[0] == '-' || s[0] == '+' then
      match ParseDigits(s[1..])
      case None => None
      case Some(d) => Some(if s[0] == '-' then -(d as int) else d as int)
    else ParseDigits(s)
  }

  /** `Number(v)` followed by `isNaN`: Some(n) when JavaScript yields the
      number n, None when it yields NaN. */
  function ToNumber(v: Value): (r: Option<int>)
    ensures v.Str? ==> r == ParseNumeric(v.s)
    ensures !v.Str? ==> (r.None? <==> v.Undef?)
    ensures IsNullish(v) ==> (r.Some? <==> v.Null?) && (r.Some? ==> r.value == 0)
    ensures v.Num? ==> r == Some(v.n)
    ensures v.Bool? ==> r == Some(if v.b then 1 else 0)
  {
    match v
    case Undef => None
    case Null => Some(0)
    case Bool(b) => Some(if b then 1 else 0)
    case Num(n) => Some(n)
    case Str(s) => ParseNumeric(s)
  }

  /** `${n}`: template-literal interpolation of an integral number. */
  function NumberToString(n: int): (s: string)
    ensures |s| >= 1
    ensures s[0] == '-' <==> n < 0
  {
    if n < 0 then "-" + Digits(-n) else Digits(n)
  }

  lemma {:induction false} ParseDigitsOfDigits(n: nat)
    ensures ParseDigits(Digits(n)) == Some(n)
    decreases n
  {
    if n >= 10 {
      ParseDigitsOfDigits(n / 10);
      var s := Digits(n);
      assert s[..|s| - 1] == Digits(n / 10);
    }
  }

  /** Printing a number and coercing the text back yields the same number, so
      an id echoed in a message or a URL addresses the same row. */
  lemma {:induction false} NumberToStringRoundTrip(n: int)
    ensures ToNumber(Str(NumberToString(n))) == Some(n)
  {
    var s := NumberToString(n);
    if n < 0 {
      ParseDigitsOfDigits(-n);
      assert s[1..] == Digits(-n);
      assert ParseNumeric(s) == Some(n);
    } else {
      ParseDigitsOfDigits(n);
      assert IsDigit(s[0]);
      assert ParseNumeric(s) == ParseDigits(s);
    }
  }
}

=== FILE: schema.dfy ===
/** The two tables of the database and the columns of their rows. */
module Schema {
  import opened Js
  import opened Store

  /** The columns of a workout row other than its id. The handler hands the
      body's `date` and `name` to the store unchanged, so they are kept as the
      JavaScript values that arrived. */
  datatype WorkoutData = WorkoutData(date: Value, name: Value)

  /** The columns of an exercise row other than its id; `workoutId` refers to
      a workout's id, but nothing in the application checks that it does. */
  datatype ExerciseData = ExerciseData(workoutId: int, name: Value, sets: int, reps: int)

  type WorkoutRow = Row<WorkoutData>

  type ExerciseRow = Row<ExerciseData>

  datatype Db = Db(workouts: Table<WorkoutData>, exercises: Table<ExerciseData>)

  ghost predicate ValidDb(db: Db) {
    Valid(db.workouts) && Valid(db.exercises)
  }

  /** Rows written through the routes never hold a falsy name, nor a falsy
      workout date; the numeric exercise columns are integers by construction. */
  ghost predicate RowsComplete(db: Db) {
    && (forall id :: id in db.workouts.rows ==>
          !IsFalsy(db.workouts.rows[id].date) && !IsFalsy(db.workouts.rows[id].name))
    && (forall id :: id in db.exercises.rows ==> !IsFalsy(db.exercises.rows[id].name))
  }

  /** The database state every route starts from and leaves behind. */
  ghost predicate Consistent(db: Db) {
    ValidDb(db) && RowsComplete(db)
  }

  function EmptyDb(): (db: Db)
    ensures Consistent(db)
    ensures |db.workouts.rows| == 0 && |db.exercises.rows| == 0
  {
    Db(Empty(), Empty())
  }
}

=== FILE: store.dfy ===
/** The relational store as the query functions use it: one table per entity,
    holding rows keyed by their id, and the table's id sequence. Each of the
    five SQL statements the repository issues (SELECT ... ORDER BY id,
    SELECT ... WHERE id, INSERT ... RETURNING, UPDATE ... WHERE id RETURNING,
    DELETE ... WHERE id RETURNING) is one total function here. */
module Store {
  import opened Wrappers

  /** A row as the store returns it: the store-assigned id and the other columns. */
  datatype Row<F> = Row(id: int, fields: F)

  /** A table: its rows by id, and the value its id sequence hands out next. */
  datatype Table<F> = Table(rows: map<int, F>, nextId: int)

  /** The statement a handler issues against a table, recorded so that the
      model can say which requests never reach the store. */
  datatype Call<F> =
    | SelectAll
    | SelectById(id: int)
    | InsertRow(data: F)
    | UpdateRow(id: int, data: F)
    | DeleteRow(id: int)

  /** The first value of a serial id sequence. */
  const FirstId: int := 1

  /** Every id in use was drawn from the sequence, so it lies below `nextId`. */
  ghost predicate Valid<F>(t: Table<F>) {
    && FirstId <= t.nextId
    && forall id :: id in t.rows ==> FirstId <= id < t.nextId
  }

  /** The table stores exactly this row under its id. */
  ghost predicate Holds<F>(t: Table<F>, r: Row<F>) {
    r.id in t.rows && t.rows[r.id] == r.fields
  }

  ghost predicate Ascending<F>(rs: seq<Row<F>>) {
    forall i, j :: 0 <= i < j < |rs| ==> rs[i].id < rs[j].id
  }

  /** The two tables agree on every id other than `id`. */
  ghost predicate SameExcept<F>(a: map<int, F>, b: map<int, F>, id: int) {
    forall k :: k != id ==> (k in a <==> k in b) && (k in a ==> a[k] == b[k])
  }

  function Empty<F>(): (t: Table<F>)
    ensures Valid(t) && |t.rows| == 0
  {
    Table(map[], FirstId)
  }

  /** The rows whose ids lie in [lo, nextId), in ascending id order. */
  function RowsFrom<F>(t: Table<F>, lo: int): (rs: seq<Row<F>>)
    ensures Ascending(rs)
    ensures forall r :: r in rs ==> lo <= r.id < t.nextId && Holds(t, r)
    ensures forall id :: id in t.rows && lo <= id < t.nextId ==> Row(id, t.rows[id]) in rs
    decreases t.nextId - lo
  {
    if lo >= t.nextId then []
    else if lo in t.rows then [Row(lo, t.rows[lo])] + RowsFrom(t, lo + 1)
    else RowsFrom(t, lo + 1)
  }

  ghost function IdsFrom<F>(t: Table<F>, lo: int): set<int> {
    set k | k in t.rows && lo <= k < t.nextId
  }

  lemma {:induction false} RowsFromCount<F>(t: Table<F>, lo: int)
    ensures |RowsFrom(t, lo)| == |IdsFrom(t, lo)|
    decreases t.nextId - lo
  {
    if lo >= t.nextId {
      assert IdsFrom(t, lo) == {};
    } else {
      RowsFromCount(t, lo + 1);
      var rest := IdsFrom(t, lo + 1);
      if lo in t.rows {
        assert RowsFrom(t, lo) == [Row(lo, t.rows[lo])] + RowsFrom(t, lo + 1);
        assert IdsFrom(t, lo) == rest + {lo};
        assert lo !in rest;
      } else {
        assert RowsFrom(t, lo) == RowsFrom(t, lo + 1);
        assert IdsFrom(t, lo) == rest;
      }
    }
  }

  /** SELECT * ORDER BY id: every row of the table exactly once, ascending by id. */
  function All<F>(t: Table<F>): (rs: seq<Row<F>>)
    requires Valid(t)
    ensures Ascending(rs)
    ensures forall r :: r in rs ==> Holds(t, r)
    ensures forall id :: id in t.rows ==> Row(id, t.rows[id]) in rs
    ensures |rs| == |t.rows|
  {
    RowsFromCount(t, FirstId);
    assert IdsFrom(t, FirstId) == t.rows.Keys;
    RowsFrom(t, FirstId)
  }

  /** SELECT * WHERE id = $1: the row with that id, or nothing. */
  function Get<F>(t: Table<F>, id: int): (r: Option<Row<F>>)
    ensures r.Some? <==> id in t.rows
    ensures r.Some? ==> r.value.id == id && Holds(t, r.value)
  {
    if id in t.rows then Some(Row(id, t.rows[id])) else None
  }

  /** INSERT ... RETURNING *: one new row under a fresh id from the sequence. */
  function Insert<F>(t: Table<F>, data: F): (res: (Table<F>, Row<F>))
    requires Valid(t)
    ensures res.1.fields == data
    ensures res.1.id !in t.rows
    ensures t.nextId <= res.1.id < res.0.nextId
    ensures res.0.rows == t.rows[res.1.id := data]
    ensures Valid(res.0)
  {
    var id := t.nextId;
    (Table(t.rows[id := data], id + 1), Row(id, data))
  }

  /** UPDATE ... SET every column WHERE id = $n RETURNING *. */
  function Replace<F>(t: Table<F>, id: int, data: F): (res: (Table<F>, Option<Row<F>>))
    ensures id in t.rows ==> res.1 == Some(Row(id, data)) && Holds(res.0, Row(id, data))
    ensures id !in t.rows ==> res.1 == None && res.0 == t
    ensures SameExcept(t.rows, res.0.rows, id)
    ensures res.0.nextId == t.nextId
    ensures Valid(t) ==> Valid(res.0)
  {
    if id in t.rows then (t.(rows := t.rows[id := data]), Some(Row(id, data)))
    else (t, None)
  }

  /** DELETE ... WHERE id = $1 RETURNING *: the row as it was, or nothing. */
  function Delete<F>(t: Table<F>, id: int): (res: (Table<F>, Option<Row<F>>))
    ensures id in t.rows ==> res.1 == Some(Row(id, t.rows[id]))
    ensures id !in t.rows ==> res.1 == None && res.0 == t
    ensures id !in res.0.rows
    ensures SameExcept(t.rows, res.0.rows, id)
    ensures res.0.nextId == t.nextId
    ensures Valid(t) ==> Valid(res.0)
  {
    if id in t.rows then (t.(rows := t.rows - {id}), Some(Row(id, t.rows[id])))
    else (t, None)
  }

  /** An id once handed out is never handed out again, even after its row is deleted. */
  lemma DeletedIdNotReused<F>(t: Table<F>, id: int, data: F)
    requires Valid(t) && id in t.rows
    ensures Insert(Delete(t, id).0, data).1.id != id
  {
  }
}

=== FILE: workout_queries.dfy ===
/** The workout query functions: each issues one statement against the
    workouts table and leaves the exercises table alone. */
module WorkoutQueries {
  import opened Wrappers
  import opened Store
  import opened Schema

  /** Every workout row, sorted ascending by id. */
  function GetAllWorkouts(db: Db): (rows: seq<WorkoutRow>)
    requires Valid(db.workouts)
    ensures Ascending(rows)
    ensures forall r :: r in rows ==> Holds(db.workouts, r)
    ensures forall id :: id in db.workouts.rows ==> Row(id, db.workouts.rows[id]) in rows
    ensures |rows| == |db.workouts.rows|
  {
    All(db.workouts)
  }

  /** The workout whose id equals the argument, or nothing. */
  function GetWorkoutById(db: Db, id: int): (r: Option<WorkoutRow>)
    ensures r.Some? <==> id in db.workouts.rows
    ensures r.Some? ==> r.value.id == id && r.value.fields == db.workouts.rows[id]
  {
    Get(db.workouts, id)
  }

  /** Inserts one workout with the given date and name and returns it with its new id. */
  function CreateWorkout(db: Db, data: WorkoutData): (res: (Db, WorkoutRow))
    requires Valid(db.workouts)
    ensures var (db', row) := res;
      && row.fields.date == data.date
      && row.fields.name == data.name
      && row.id !in db.workouts.rows
      && db'.workouts.rows == db.workouts.rows[row.id := data]
      && db'.exercises == db.exercises
      && db.workouts.nextId <= row.id < db'.workouts.nextId
      && Valid(db'.workouts)
  {
    var (t, row) := Insert(db.workouts, data);
    (db.(workouts := t), row)
  }

  /** Overwrites both date and name of the matching workout; its id stays. */
  function UpdateWorkout(db: Db, id: int, data: WorkoutData): (res: (Db, Option<WorkoutRow>))
    ensures var (db', r) := res;
      && (id in db.workouts.rows ==> r == Some(Row(id, data)) && Holds(db'.workouts, Row(id, data)))
      && (id !in db.workouts.rows ==> r == None && db' == db)
      && SameExcept(db.workouts.rows, db'.workouts.rows, id)
      && db'.exercises == db.exercises
      && db'.workouts.nextId == db.workouts.nextId
      && (Valid(db.workouts) ==> Valid(db'.workouts))
  {
    var (t, r) := Replace(db.workouts, id, data);
    (db.(workouts := t), r)
  }

  /** Removes only the matching workout and returns it as it was; the
      exercises that refer to it stay where they are. */
  function DeleteWorkout(db: Db, id: int): (res: (Db, Option<WorkoutRow>))
    ensures var (db', r) := res;
      && (id in db.workouts.rows ==> r == Some(Row(id, db.workouts.rows[id])))
      && (id !in db.workouts.rows ==> r == None && db' == db)
      && id !in db'.workouts.rows
      && SameExcept(db.workouts.rows, db'.workouts.rows, id)
      && db'.exercises == db.exercises
      && db'.workouts.nextId == db.workouts.nextId
      && (Valid(db.workouts) ==> Valid(db'.workouts))
  {
    var (t, r) := Delete(db.workouts, id);
    (db.(workouts := t), r)
  }

  /** Applying the same update twice is the same as applying it once. */
  lemma UpdateWorkoutIdempotent(db: Db, id: int, data: WorkoutData)
    ensures var (db1, r1) := UpdateWorkout(db, id, data);
            UpdateWorkout(db1, id, data) == (db1, r1)
  {
    var (db1, r1) := UpdateWorkout(db, id, data);
    if id in db.workouts.rows {
      assert db1.workouts.rows[id := data] == db1.workouts.rows;
    }
  }

  /** A second delete of the same id finds nothing. */
  lemma DeleteWorkoutTwice(db: Db, id: int)
    ensures var (db1, _) := DeleteWorkout(db, id);
            DeleteWorkout(db1, id) == (db1, None)
  {
  }
}

=== FILE: workouts_api.dfy ===
/** The `/workouts` routes. Each handler coerces the path id, then checks
    that `date` and `name` are truthy, and only then issues one statement
    against the store, mapping an absent row to 404. */
module WorkoutsApi {
  import opened Wrappers
  import opened Js
  import opened Store
  import opened Schema
  import opened Http
  import opened WorkoutQueries

  /** The destructured `{ date, name }` of the JSON body. */
  datatype WorkoutBody = WorkoutBody(date: Value, name: Value)

  type Outcome = Handled<Db, Call<WorkoutData>, WorkoutRow>

  const InvalidIdMessage: string := "Invalid workout ID"
  const FieldsRequiredMessage: string := "Both 'date' and 'name' fields are required"

  function NotFoundMessage(id: int): string {
    "Workout with ID " + NumberToString(id) + " not found"
  }

  function CannotUpdateMessage(id: int): string {
    "Cannot update: workout with ID " + NumberToString(id) + " not found"
  }

  function CannotDeleteMessage(id: int): string {
    "Cannot delete: workout with ID " + NumberToString(id) + " not found"
  }

  /** Body validation shared by POST and PUT: both fields truthy, passed on unchanged. */
  function CheckBody(b: WorkoutBody): (r: Result<WorkoutData, string>)
    ensures r.Success? <==> !IsFalsy(b.date) && !IsFalsy(b.name)
    ensures r.Failure? ==> r.error == FieldsRequiredMessage
    ensures r.Success? ==> r.value.date == b.date && r.value.name == b.name
  {
    if IsFalsy(b.date) || IsFalsy(b.name) then Failure(FieldsRequiredMessage)
    else Success(WorkoutData(b.date, b.name))
  }

  /** GET /workouts */
  function HandleList(db: Db): (h: Outcome)
    requires Valid(db.workouts)
    ensures h.store == db && h.call == Some(SelectAll)
    ensures h.response.status == Ok && h.response.body.Many?
    ensures Ascending(h.response.body.rows)
    ensures forall r :: r in h.response.body.rows ==> Holds(db.workouts, r)
    ensures forall id :: id in db.workouts.rows ==> Row(id, db.workouts.rows[id]) in h.response.body.rows
  {
    Handled(db, Some(SelectAll), Response(Ok, Many(GetAllWorkouts(db))))
  }

  /** GET /workouts/:id */
  function HandleGet(db: Db, rawId: string): (h: Outcome)
    ensures h.store == db
    ensures h.call.None? <==> h.response.status == BadRequest
    ensures PathId(rawId).None? ==> h.response == Fail(BadRequest, InvalidIdMessage)
    ensures PathId(rawId).Some? ==>
              var id := PathId(rawId).value;
              && h.call == Some(SelectById(id))
              && (id in db.workouts.rows ==> h.response == Response(Ok, One(Row(id, db.workouts.rows[id]))))
              && (id !in db.workouts.rows ==> h.response == Fail(NotFound, NotFoundMessage(id)))
  {
    match PathId(rawId)
    case None => Handled(db, None, Fail(BadRequest, InvalidIdMessage))
    case Some(id) =>
      var found := GetWorkoutById(db, id);
      Handled(db, Some(SelectById(id)),
              if found.None? then Fail(NotFound, NotFoundMessage(id)) else Response(Ok, One(found.value)))
  }

  /** POST /workouts */
  function HandlePost(db: Db, body: WorkoutBody): (h: Outcome)
    requires Valid(db.workouts)
    ensures h.call.None? <==> h.response.status == BadRequest
    ensures h.call.None? ==> h.store == db
    ensures IsFalsy(body.date) || IsFalsy(body.name) ==> h.response == Fail(BadRequest, FieldsRequiredMessage)
    ensures !IsFalsy(body.date) && !IsFalsy(body.name) ==>
              var data := WorkoutData(body.date, body.name);
              && h.call == Some(InsertRow(data))
              && h.response.status == Created
              && h.response.body.One?
              && h.response.body.row.fields == data
              && h.response.body.row.id !in db.workouts.rows
              && db.workouts.nextId <= h.response.body.row.id < h.store.workouts.nextId
              && h.store.workouts.rows == db.workouts.rows[h.response.body.row.id := data]
    ensures h.store.exercises == db.exercises
    ensures h.store.workouts.nextId >= db.workouts.nextId
    ensures Valid(h.store.workouts)
  {
    match CheckBody(body)
    case Failure(message) => Handled(db, None, Fail(BadRequest, message))
    case Success(data) =>
      var (db', row) := CreateWorkout(db, data);
      Handled(db', Some(InsertRow(data)), Response(Created, One(row)))
  }

  /** PUT /workouts/:id: the id is checked before the body. */
  function HandlePut(db: Db, rawId: string, body: WorkoutBody): (h: Outcome)
    ensures h.call.None? <==> h.response.status == BadRequest
    ensures h.call.None? ==> h.store == db
    ensures h.response.status == NotFound ==> h.store == db
    ensures PathId(rawId).None? ==> h.response == Fail(BadRequest, InvalidIdMessage)
    ensures PathId(rawId).Some? && (IsFalsy(body.date) || IsFalsy(body.name)) ==>
              h.response == Fail(BadRequest, FieldsRequiredMessage)
    ensures PathId(rawId).Some? && !IsFalsy(body.date) && !IsFalsy(body.name) ==>
              var id := PathId(rawId).value;
              var data := WorkoutData(body.date, body.name);
              && h.call == Some(UpdateRow(id, data))
              && SameExcept(db.workouts.rows, h.store.workouts.rows, id)
              && (id in db.workouts.rows ==>
                    h.response == Response(Ok, One(Row(id, data))) && Holds(h.store.workouts, Row(id, data)))
              && (id !in db.workouts.rows ==> h.response == Fail(NotFound, CannotUpdateMessage(id)))
    ensures h.store.exercises == db.exercises
    ensures h.store.workouts.nextId == db.workouts.nextId
    ensures Valid(db.workouts) ==> Valid(h.store.workouts)
  {
    match PathId(rawId)
    case None => Handled(db, None, Fail(BadRequest, InvalidIdMessage))
    case Some(id) =>
      match CheckBody(body)
      case Failure(message) => Handled(db, None, Fail(BadRequest, message))
      case Success(data) =>
        var (db', updated) := UpdateWorkout(db, id, data);
        Handled(db', Some(UpdateRow(id, data)),
                if updated.None? then Fail(NotFound, CannotUpdateMessage(id)) else Response(Ok, One(updated.value)))
  }

  /** DELETE /workouts/:id: only the workout row goes; its exercises stay. */
  function HandleDelete(db: Db, rawId: string): (h: Outcome)
    ensures h.call.None? <==> h.response.status == BadRequest
    ensures h.call.None? ==> h.store == db
    ensures h.response.status == NotFound ==> h.store == db
    ensures PathId(rawId).None? ==> h.response == Fail(BadRequest, InvalidIdMessage)
    ensures PathId(rawId).Some? ==>
              var id := PathId(rawId).value;
              && h.call == Some(DeleteRow(id))
              && id !in h.store.workouts.rows
              && SameExcept(db.workouts.rows, h.store.workouts.rows, id)
              && (id in db.workouts.rows ==> h.response == Response(Ok, One(Row(id, db.workouts.rows[id]))))
              && (id !in db.workouts.rows ==> h.response == Fail(NotFound, CannotDeleteMessage(id)))
    ensures h.store.exercises == db.exercises
    ensures h.store.workouts.nextId == db.workouts.nextId
    ensures Valid(db.workouts) ==> Valid(h.store.workouts)
  {
    match PathId(rawId)
    case None => Handled(db, None, Fail(BadRequest, InvalidIdMessage))
    case Some(id) =>
      var (db', deleted) := DeleteWorkout(db, id);
      Handled(db', Some(DeleteRow(id)),
              if deleted.None? then Fail(NotFound, CannotDeleteMessage(id)) else Response(Ok, One(deleted.value)))
  }

  /** Replaying the same PUT leaves the same table and gives the same response. */
  lemma PutIdempotent(db: Db, rawId: string, body: WorkoutBody)
    ensures var h1 := HandlePut(db, rawId, body);
            var h2 := HandlePut(h1.store, rawId, body);
            h2.store == h1.store && h2.response == h1.response
  {
  }

  /** A second DELETE of the same id is a 404 that changes nothing. */
  lemma DeleteTwiceNotFound(db: Db, rawId: string)
    requires PathId(rawId).Some?
    ensures var h1 := HandleDelete(db, rawId);
            var h2 := HandleDelete(h1.store, rawId);
            h2.response == Fail(NotFound, CannotDeleteMessage(PathId(rawId).value)) && h2.store == h1.store
  {
  }

  /** The id in a 201 response, written into a GET path, fetches the created row. */
  lemma PostThenGet(db: Db, body: WorkoutBody)
    requires Valid(db.workouts)
    requires CheckBody(body).Success?
    ensures var h := HandlePost(db, body);
            HandleGet(h.store, NumberToString(h.response.body.row.id)).response == Response(Ok, h.response.body)
  {
    var h := HandlePost(db, body);
    NumberToStringRoundTrip(h.response.body.row.id);
  }

  /** `POST /workouts {"date":"2025-05-20","name":"Leg Day"}` answers 201
      with a new row carrying both fields. */
  lemma LegDayScenario(db: Db)
    requires Valid(db.workouts)
    ensures var h := HandlePost(db, WorkoutBody(Str("2025-05-20"), Str("Leg Day")));
            && h.response.status == Created
            && h.response.body.One?
            && h.response.body.row.fields == WorkoutData(Str("2025-05-20"), Str("Leg Day"))
            && h.response.body.row.id !in db.workouts.rows
  {
  }

  /** `GET /workouts/abc` answers 400 without reaching the store. */
  lemma NonNumericIdScenario(db: Db)
    ensures HandleGet(db, "abc") == Handled(db, None, Fail(BadRequest, "Invalid workout ID"))
  {
  }

  /** `GET /workouts/9999` on a table without that id answers 404 naming the id. */
  lemma MissingIdScenario(db: Db)
    requires 9999 !in db.workouts.rows
    ensures HandleGet(db, "9999").response == Fail(NotFound, "Workout with ID 9999 not found")
  {
    assert Digits(99) == "99";
    assert Digits(999) == "999";
    assert NumberToString(9999) == "9999";
    NumberToStringRoundTrip(9999);
    assert PathId("9999") == Some(9999);
    assert NotFoundMessage(9999) == "Workout with ID 9999 not found";
  }

  /** Every route keeps the database consistent: ids stay below the sequence
      value and no stored row holds a falsy name or date. */
  lemma RoutesKeepDbConsistent(db: Db, rawId: string, body: WorkoutBody)
    requires Consistent(db)
    ensures Consistent(HandleList(db).store)
    ensures Consistent(HandleGet(db, rawId).store)
    ensures Consistent(HandlePost(db, body).store)
    ensures Consistent(HandlePut(db, rawId, body).store)
    ensures Consistent(HandleDelete(db, rawId).store)
  {
  }

  /** POST, DELETE of the id it returned (which finds and returns the created
      row), then POST again: the second row never gets the deleted id back,
      nor any id the table held before. */
  lemma DeletedIdNotReissued(db: Db, first: WorkoutBody, second: WorkoutBody)
    requires Valid(db.workouts)
    requires CheckBody(first).Success? && CheckBody(second).Success?
    ensures var h1 := HandlePost(db, first);
            var h2 := HandleDelete(h1.store, NumberToString(h1.response.body.row.id));
            var h3 := HandlePost(h2.store, second);
            && h2.response == Response(Ok, h1.response.body)
            && h3.response.body.row.id != h1.response.body.row.id
            && h3.response.body.row.id !in db.workouts.rows
  {
    var h1 := HandlePost(db, first);
    NumberToStringRoundTrip(h1.response.body.row.id);
  }
}

=== FILE: wrappers.dfy ===
/** An optional value and a value-or-error result, shared by the model. */
module Wrappers {

  /** A value that may be absent, as the query functions return a row or nothing. */
  datatype Option<+T> = None | Some(value: T)

  /** Either a value or an error, as body validation returns data or a message. */
  datatype Result<+T, +E> = Success(value: T) | Failure(error: E)
}
